=== FILE: README.md ===
# JobGoblin interview client — state machines in Dafny

This project models the three decision rules at the core of the JobGoblin
mock-interview web client and proves properties of them:

- **Goblin lip sync** (`goblin_mouth.dfy`, module `GoblinMouth`): each animation
  frame reads bin 1 of the speech analyser's byte frequency data (a missing bin
  reads as 0) and the clock, and picks the closed, slightly open or wide open
  mouth image. A bin value above 10 is sound; above 140 it opens the mouth wide.
  After the sound stops the mouth is held for 500 ms and closes on the first
  silent frame more than 500 ms after the last sound. Without an analyser every
  frame shows the closed mouth. The model is a pure per-frame step `Animate`
  over `Mouth(image, lastTalkTime)`, a run of frames `Run`, and a declarative
  reference `Expected` (the image of the last sounding frame, held until a later
  frame closes it) proved equal to `Run` on every run.
- **Speech playback scheduling** (`playback.dfy`, module `Playback`): every
  message of the live session may carry one decoded audio chunk (reduced to its
  duration) and an interruption flag. A chunk starts at the later of the queue
  cursor `nextStartTime` and the audio clock, the cursor moves to its end, and
  the source is tracked until its `ended` event. An interruption — handled after
  the message's audio — stops and forgets every tracked source, that message's
  own chunk included, and sets the cursor to 0. When the audio part fails to
  decode, the callback ends early: the cursor has already moved up to the clock,
  no source starts, and the interruption flag of that message is never read.
  Proved: freshness and non-overlap of tracked sources as an invariant; queueing
  in order between interruptions, where each chunk starts at the later of the
  previous chunk's end and its own clock reading when every chunk decodes — back
  to back when it arrives before the previous one ends, otherwise at the clock,
  leaving a gap; no chunk starting before the clock; and sources staying tracked
  until their own `ended` event.
- **Page flags and status line** (`session_ui.dfy`, module `SessionUi`): the
  flags `isRecording`, `isContextSet`, `codingQuestionsEnabled`,
  `isCodingSessionActive` and the `status`/`error` strings; the handlers for the
  record, reset, context-form and coding buttons and for the session's status
  callbacks; and the rendered view (context form, controls, record icon, coding
  button, status line = error if non-empty, else status). The controls the user
  can reach follow from the rendered view. When each start is taken as one step,
  every state reachable through them keeps recording, coding and coding sessions
  behind a submitted context. The program awaits the microphone request,
  however, and a reset during that wait followed by a granted request leaves it
  recording with no context (`ResetWhileMicPending`).

`option.dfy` (module `Optional`) holds the `Option` type used for a missing
frequency bin and a message without audio.

Observations the model makes precise:

- The guard at the top of `stopRecording` (index.tsx:409) can never return
  early, because the input audio context is always created (index.tsx:26);
  `StopRecording` is therefore unconditional.
- When the microphone is denied, `startRecording` reports `Error: …` and then
  calls `stopRecording`, whose status update clears the error in the same step;
  the page therefore shows "Interview paused." and the error text never reaches
  the status line (`DeniedMicLeavesNoError`).
- The "in progress" status text starts with the four characters U+00F0 U+0178
  U+201D U+00B4 — the UTF-8 bytes of a red circle emoji read as Windows-1252 —
  and the page shows them as written; the model keeps that text exactly.

## Model

| member | source | states |
|---|---|---|
| GoblinMouth.Animate | goblin-visual.ts:71-105 | a sounding frame picks the open image for its level and stamps the clock; a silent frame keeps the talk time and either keeps the image or closes the mouth; the mouth is open afterwards exactly when there is sound now or it was open and at most 500 ms have passed |
| GoblinMouth.RunMatchesExpected | goblin-visual.ts:71-105 | on every run of frames the mouth shows the image of the last sounding frame (or its starting image) unless a later frame closed it, and the talk time is the clock of the last sounding frame |
| GoblinMouth.SilenceNeverOpens | goblin-visual.ts:99-105 | a run of silent frames leaves the talk time unchanged and the image either unchanged or closed |
| GoblinMouth.ClosedStaysClosedInSilence | goblin-visual.ts:99-105 | once closed, the mouth stays closed through any run of silent frames |
| GoblinMouth.TalkTimeWithinClock | goblin-visual.ts:82-91 | with a clock that never goes backwards, the talk time after a run is no earlier than before and no later than the latest clock reading |
| GoblinMouth.TalkTimeNonDecreasing | goblin-visual.ts:82-91 | with a non-decreasing clock the talk time after a longer prefix of a run is never earlier than after a shorter one |
| GoblinMouth.NoAnalyserShowsClosed | goblin-visual.ts:74-77 | without an analyser a frame shows the closed mouth and changes nothing else |
| GoblinMouth.ThresholdEdges | goblin-visual.ts:84-98 | 10 is silence and 11 is sound; 140 opens the mouth slightly and 141 opens it wide |
| GoblinMouth.MissingBinIsSilence | goblin-visual.ts:81 | when bin 1 is missing the frame counts as silent |
| GoblinMouth.HoldEdge | goblin-visual.ts:99-105 | a silent frame at most 500 ms after the last sound (exactly 500 ms included) leaves image and talk time unchanged; a later one closes the mouth and keeps the talk time |
| GoblinMouth.InitialSilentStaysClosed | goblin-visual.ts:33-35 | a fresh component starts closed with talk time 0 and stays so through any run of silent frames |
| GoblinMouth.LastSounding | goblin-visual.ts:89-91 | the index found is a sounding frame and no frame after it sounds, or no frame sounds at all |
| Playback.Init | index.tsx:260-262 | the cursor starts at the clock reading taken at initialisation, with no tracked source, in a valid state |
| Playback.Schedule | index.tsx:290-310 | a chunk starts at the later of cursor and clock, never before either; the cursor moves to its end; it is tracked under a fresh identity and no other tracked source changes |
| Playback.Interrupt | index.tsx:313-320 | every tracked source is stopped and forgotten and the cursor goes to 0 |
| Playback.OnMessage | index.tsx:285-321 | a source starts exactly when the message has audio that decodes; the started chunk gets a fresh identity; without an interruption that runs nothing stops and every tracked source stays tracked and unchanged, and the chunk is queued at the later of cursor and clock; a failed decode moves the cursor up to the clock, starts nothing and skips the interruption, so every tracked source keeps playing; an interruption that runs stops everything tracked, the message's own chunk included, and resets the cursor |
| Playback.OnEnded | index.tsx:304-306 | a source's `ended` event forgets that source and keeps every other tracked source and the cursor |
| Playback.OnMessagePreservesValid | index.tsx:285-321 | a message keeps tracked identities fresh, every tracked source ending by the cursor, and tracked sources pairwise non-overlapping |
| Playback.OnEndedPreservesValid | index.tsx:304-306 | an `ended` event keeps the same invariant |
| Playback.RunPreservesValid | index.tsx:285-321 | the invariant holds after any run of messages and `ended` events |
| Playback.QueuedBackToBack | index.tsx:290-309 | between interruptions every chunk starts at the later of the cursor it finds and its message's clock, that cursor is at or after the previous chunk's end, and the final cursor is at or after the last end; when every chunk decodes, each cursor is exactly the previous end, so each chunk starts at the later of the previous end and its clock (back to back when it arrives before the previous one ends, otherwise at the clock) and the cursor ends at the last end |
| Playback.ChainedNeverOverlap | index.tsx:308-309 | chunks queued in order never overlap: each starts no earlier than every earlier one ends |
| Playback.LogMatchesOnMessage | index.tsx:301-310 | the log entry of a message is the source its callback starts, with the cursor and clock it saw, and matches the tracked source when the message does not interrupt |
| Playback.NeverStartsInThePast | index.tsx:290-293 | no chunk of a run starts before the clock reading of its own message |
| Playback.ActiveUntilEnded | index.tsx:304-310 | a tracked source stays tracked and unchanged until its own `ended` event or an interruption |
| Playback.NextChunkAfterInterruptStartsNow | index.tsx:289-320 | after an interruption that runs, the next chunk starts exactly at the current clock |
| SessionUi.Initial | index.tsx:15-20 | the page starts with all four flags off and an empty status line, in a consistent state |
| SessionUi.UpdateStatus | index.tsx:346-349 | the status line shows the new status, the error is cleared, the flags are kept |
| SessionUi.UpdateError | index.tsx:351-353 | the error becomes the message, and a non-empty one is what the status line shows; an empty one falls back to the status; the status and flags are kept |
| SessionUi.StopRecording | index.tsx:408-428 | recording is off, the error cleared and "Interview paused." shown; the other flags are kept |
| SessionUi.RequestMicrophone | index.tsx:360-362 | before the request is awaited the status announces it, the error is cleared and the flags are kept |
| SessionUi.FinishStart | index.tsx:364-405 | once the request resolves, recording is on exactly when granted; the status is the in-progress text on a grant and "Interview paused." on a denial, the error is empty, the other flags are kept |
| SessionUi.StartRecording | index.tsx:355-406 | nothing changes while recording; otherwise recording is on exactly when the microphone is granted, the error is cleared, and the status is the in-progress text on a grant and "Interview paused." on a denial; other flags are kept |
| SessionUi.ToggleRecording | index.tsx:430-436 | recording is on afterwards exactly when it was off and the microphone was granted; the error is cleared either way; a granted start shows the in-progress text, a denied start and a stop show the paused text; the other flags are kept |
| SessionUi.Reset | index.tsx:438-446 | all four flags are off, the error is empty and the cleared-session text is shown |
| SessionUi.SubmitContext | index.tsx:448-501 | the context is set and coding questions follow the checkbox; recording, coding session and status are kept |
| SessionUi.StartCodingSession | index.tsx:503-505 | the coding session is active and its start button hidden; everything else is kept |
| SessionUi.EndCodingSession | index.tsx:516-518 | the coding session is over and its start button is hidden exactly when coding questions are off |
| SessionUi.Handle | index.tsx:282-343 | the live session's callbacks never change a flag; opening shows "Opened", closing shows "Close:" and the reason, an error or failed connection sets the error to its message and keeps the status; the next-question button changes nothing |
| SessionUi.HandlePreservesConsistent | index.tsx:613-641 | an event whose control is on screen keeps recording, coding questions and coding sessions behind a set context, and coding sessions behind enabled coding questions |
| SessionUi.ResetWhileMicPending | index.tsx:355-446 | with the request pending the reset button is on screen, and a reset followed by a granted request leaves the page recording without a context, form shown and controls hidden |
| SessionUi.ReachableConsistent | index.tsx:613-641 | every state reached by events whose controls were on screen, each start taken as one step, keeps that invariant |
| SessionUi.ReachableFromInitial | index.tsx:15-20 | every state the page reaches from its first state through controls on screen, each start taken as one step, is consistent |
| SessionUi.Render | index.tsx:613-644 | the context form and the controls never show together, the coding button never beside the coding editor, and in a consistent state the pause icon, coding button and coding editor only appear once the context is set |
| SessionUi.CodingButtonShown | index.tsx:634-639 | the coding button is shown exactly when coding questions are on and no coding session is active, and never beside the coding editor |
| SessionUi.DeniedMicLeavesNoError | index.tsx:401-404 | after a denied microphone request the error is empty and the status line reads "Interview paused." |
| SessionUi.StatusLineFollowsReports | index.tsx:644 | the status line shows the last status unless a later non-empty error is set, and an empty error falls back to the status |

## Left out

- The browser audio graph and media APIs (audio contexts, gain nodes, the script processor, `getUserMedia`, media tracks, `start`/`stop` of sources): replaced by abstract events (chunk scheduled, source ended, microphone granted or denied).
- The helpers `createBlob`, `decode` and `decodeAudioData` of `./utils`, the `Analyser` of `./analyser` and `./visual-3d`: they are not part of this model; decoding either yields a buffer, reduced to its duration, or fails, and an analyser reading is a sequence of bytes.
- The remote live session (`connect`, `sendRealtimeInput`, `close`, the session promise): an opaque network service; only its status callbacks are modelled, as events.
- Async interleaving: the `await` between reading the cursor and advancing it, and the `await` inside `startRecording`, could let events interleave; each message and each start is modelled as one atomic step in the event runs.
- SessionUi.ReachableConsistent: holds only of runs where each start is one atomic step; in the program a reset while the microphone request is pending, followed by a grant, reaches a recording page with no context, which `ResetWhileMicPending` exhibits.
- Floating point: clocks are exact reals; the bounce scale of the character image is not modelled.
- The "Requesting microphone access..." status the program shows while the microphone request is pending: in the event runs each start is one step, so that status never appears there; it exists only as the result of `RequestMicrophone`, which `ResetWhileMicPending` uses. "Microphone access granted. Starting capture..." is overwritten in the same synchronous block in the program too, so no event run shows it either.
- Rendering (styles, templates, the animation-frame loop), clearing the code editor's text, and the content of the interviewer's system instruction.

=== FILE: goblin_mouth.dfy ===
/**
 * The lip-sync state machine of the goblin character (goblin-visual.ts).
 *
 * Once per animation frame the component reads one frequency bin of the
 * speech output analyser and the clock, and picks one of three mouth images.
 * Two volume thresholds choose the image while sound is present; once the
 * sound stops the mouth is held open for a fixed delay before it closes.
 */
module GoblinMouth {
  /** One entry of the analyser's unsigned byte frequency data. */
  type Byte = v: int | 0 <= v < 256

  datatype Image = MouthClosed | MouthSlightlyOpen | MouthWideOpen

  /** A bin value at or below this is silence. */
  const SilenceThreshold: Byte := 10
  /** A bin value above this opens the mouth wide. */
  const TalkingThreshold: Byte := 140
  /** Milliseconds of silence after the last sound before the mouth closes. */
  const MouthCloseDelay: real := 500.0

  /** The component's animation state: the image shown and when sound was last heard (ms). */
  datatype Mouth = Mouth(image: Image, lastTalkTime: real)

  /**
   * What one animation frame sees: either no analyser is attached yet, or
   * the analyser's frequency bins together with the clock reading in ms.
   */
  datatype Frame = NoAnalyser | Sample(bins: seq<Byte>, now: real)

  /** The state a freshly created component starts in. */
  function Initial(): Mouth
  {
    Mouth(MouthClosed, 0.0)
  }

  /** The bin that is read is bin 1; a missing bin reads as 0. */
  function Volume(bins: seq<Byte>): Byte
  {
    if |bins| > 1 then bins[1] else 0
  }

  predicate Sounding(volume: Byte)
  {
    volume > SilenceThreshold
  }

  /** The image chosen while sound is present. */
  function OpenImage(volume: Byte): Image
  {
    if volume > TalkingThreshold then MouthWideOpen else MouthSlightlyOpen
  }

  predicate IsSounding(f: Frame)
  {
    f.Sample? && Sounding(Volume(f.bins))
  }

  /** One animation frame. */
  function Animate(m: Mouth, f: Frame): (r: Mouth)
    // sound picks the open image by level and stamps the clock
    ensures IsSounding(f) ==> r.image == OpenImage(Volume(f.bins)) && r.lastTalkTime == f.now
    // the talk time moves only on a sounding frame
    ensures !IsSounding(f) ==> r.lastTalkTime == m.lastTalkTime
    // silence either keeps the image or closes the mouth; it never opens it
    ensures !IsSounding(f) ==> r.image == m.image || r.image == MouthClosed
    // the mouth is open afterwards exactly when there is sound now, or it was
    // open and the hold delay has not yet run out
    ensures r.image != MouthClosed <==>
              IsSounding(f)
              || (f.Sample? && m.image != MouthClosed && f.now - m.lastTalkTime <= MouthCloseDelay)
  {
    match f
    case NoAnalyser =>
      m.(image := MouthClosed)
    case Sample(bins, now) =>
      var volume := Volume(bins);
      if Sounding(volume) then
        Mouth(OpenImage(volume), now)
      else if now - m.lastTalkTime > MouthCloseDelay then
        m.(image := MouthClosed)
      else
        m
  }

  /** The state after a run of frames, the last frame applied last. */
  function Run(m: Mouth, frames: seq<Frame>): Mouth
    decreases |frames|
  {
    if |frames| == 0 then m
    else Animate(Run(m, frames[..|frames| - 1]), frames[|frames| - 1])
  }

  /** Index of the last sounding frame, or -1 when no frame sounds. */
  function LastSounding(frames: seq<Frame>): (k: int)
    ensures -1 <= k < |frames|
    ensures k >= 0 ==> IsSounding(frames[k])
    ensures forall j :: k < j < |frames| ==> !IsSounding(frames[j])
    decreases |frames|
  {
    if |frames| == 0 then -1
    else if IsSounding(frames[|frames| - 1]) then |frames| - 1
    else LastSounding(frames[..|frames| - 1])
  }

  /** A silent frame that closes the mouth when sound was last heard at `talk`. */
  predicate Closes(f: Frame, talk: real)
  {
    f.NoAnalyser? || f.now - talk > MouthCloseDelay
  }

  /** When sound was last heard after `frames`, starting from `m`. */
  function TalkTimeAfter(m: Mouth, frames: seq<Frame>): real
  {
    var k := LastSounding(frames);
    if k < 0 then m.lastTalkTime else frames[k].now
  }

  /**
   * Reference description of the hysteresis: the mouth keeps the image of the
   * last sounding frame (or the starting image when nothing sounded) until a
   * later frame closes it; the talk time is that of the last sounding frame.
   */
  ghost function Expected(m: Mouth, frames: seq<Frame>): Mouth
  {
    var k := LastSounding(frames);
    var talk := TalkTimeAfter(m, frames);
    var image :=
      if exists j :: k < j < |frames| && Closes(frames[j], talk) then MouthClosed
      else if k < 0 then m.image
      else OpenImage(Volume(frames[k].bins));
    Mouth(image, talk)
  }

  /** The step-by-step animation agrees with the reference description on every run. */
  lemma {:induction false} RunMatchesExpected(m: Mouth, frames: seq<Frame>)
    ensures Run(m, frames) == Expected(m, frames)
    decreases |frames|
  {
    if |frames| > 0 {
      var n := |frames| - 1;
      var prefix := frames[..n];
      RunMatchesExpected(m, prefix);
      var k := LastSounding(frames);
      var talk := TalkTimeAfter(m, frames);
      if !IsSounding(frames[n]) {
        assert k == LastSounding(prefix);
        assert talk == TalkTimeAfter(m, prefix);
        if Closes(frames[n], talk) {
          assert k < n;
        } else {
          assert (exists j :: k < j < |frames| && Closes(frames[j], talk))
            <==> (exists j :: k < j < |prefix| && Closes(prefix[j], talk)) by {
            forall j | k < j < |prefix| ensures prefix[j] == frames[j] { }
          }
        }
      }
    }
  }

  /** Frames that carry no sound. */
  predicate AllSilent(frames: seq<Frame>)
  {
    forall j :: 0 <= j < |frames| ==> !IsSounding(frames[j])
  }

  /** A run of silent frames never opens the mouth nor changes its open level. */
  lemma {:induction false} SilenceNeverOpens(m: Mouth, frames: seq<Frame>)
    requires AllSilent(frames)
    ensures Run(m, frames).image == m.image || Run(m, frames).image == MouthClosed
    ensures Run(m, frames).lastTalkTime == m.lastTalkTime
  {
    RunMatchesExpected(m, frames);
  }

  /** Once closed, the mouth stays closed through any run of silent frames. */
  lemma {:induction false} ClosedStaysClosedInSilence(m: Mouth, frames: seq<Frame>)
    requires m.image == MouthClosed
    requires AllSilent(frames)
    ensures Run(m, frames).image == MouthClosed
  {
    SilenceNeverOpens(m, frames);
  }

  /** A fresh component shows the closed mouth through any run of silent frames, and its talk time stays 0. */
  lemma {:induction false} InitialSilentStaysClosed(frames: seq<Frame>)
    requires AllSilent(frames)
    ensures Run(Initial(), frames) == Mouth(MouthClosed, 0.0)
  {
    ClosedStaysClosedInSilence(Initial(), frames);
    SilenceNeverOpens(Initial(), frames);
  }

  /** Clock readings never go backwards across the samples of a run. */
  predicate ClockMonotone(frames: seq<Frame>)
  {
    forall i, j :: 0 <= i < j < |frames| && frames[i].Sample? && frames[j].Sample? ==>
      frames[i].now <= frames[j].now
  }

  /** No sample of the run reads the clock earlier than `t`. */
  predicate ClockFrom(t: real, frames: seq<Frame>)
  {
    forall j :: 0 <= j < |frames| && frames[j].Sample? ==> t <= frames[j].now
  }

  /** The latest clock reading of a run, or `t` when the run holds no sample. */
  function LatestClock(t: real, frames: seq<Frame>): real
    decreases |frames|
  {
    if |frames| == 0 then t
    else if frames[|frames| - 1].Sample? then frames[|frames| - 1].now
    else LatestClock(t, frames[..|frames| - 1])
  }

  lemma {:induction false} LatestClockBounds(t: real, frames: seq<Frame>, k: int)
    requires ClockMonotone(frames)
    requires 0 <= k < |frames| && frames[k].Sample?
    ensures frames[k].now <= LatestClock(t, frames)
    decreases |frames|
  {
    var n := |frames| - 1;
    if k < n && !frames[n].Sample? {
      var prefix := frames[..n];
      assert prefix[k] == frames[k];
      assert ClockMonotone(prefix) by {
        forall i, j | 0 <= i < j < |prefix| && prefix[i].Sample? && prefix[j].Sample?
          ensures prefix[i].now <= prefix[j].now
        {
          assert prefix[i] == frames[i] && prefix[j] == frames[j];
        }
      }
      LatestClockBounds(t, prefix, k);
    }
  }

  /**
   * With a clock that never goes backwards, the talk time never decreases over
   * a run and never exceeds the latest clock reading.
   */
  lemma {:induction false} TalkTimeWithinClock(m: Mouth, frames: seq<Frame>)
    requires ClockMonotone(frames)
    requires ClockFrom(m.lastTalkTime, frames)
    ensures m.lastTalkTime <= Run(m, frames).lastTalkTime
    ensures Run(m, frames).lastTalkTime <= LatestClock(m.lastTalkTime, frames)
  {
    RunMatchesExpected(m, frames);
    var k := LastSounding(frames);
    if k >= 0 {
      LatestClockBounds(m.lastTalkTime, frames, k);
    } else {
      LatestFromStart(m.lastTalkTime, frames);
    }
  }

  lemma {:induction false} LatestFromStart(t: real, frames: seq<Frame>)
    requires ClockFrom(t, frames)
    ensures t <= LatestClock(t, frames)
    decreases |frames|
  {
    if |frames| > 0 && !frames[|frames| - 1].Sample? {
      var prefix := frames[..|frames| - 1];
      assert ClockFrom(t, prefix) by {
        forall j | 0 <= j < |prefix| && prefix[j].Sample? ensures t <= prefix[j].now {
          assert prefix[j] == frames[j];
        }
      }
      LatestFromStart(t, prefix);
    }
  }

  /** Running two pieces one after the other is running their concatenation. */
  lemma {:induction false} RunAppend(m: Mouth, a: seq<Frame>, b: seq<Frame>)
    ensures Run(m, a + b) == Run(Run(m, a), b)
    decreases |b|
  {
    if |b| == 0 {
      assert a + b == a;
    } else {
      var n := |b| - 1;
      assert (a + b)[..|a + b| - 1] == a + b[..n];
      RunAppend(m, a, b[..n]);
    }
  }

  /** A slice of a run with a monotone clock has a monotone clock. */
  lemma MonotoneSlice(frames: seq<Frame>, i: nat, j: nat)
    requires i <= j <= |frames|
    requires ClockMonotone(frames)
    ensures ClockMonotone(frames[i..j])
  {
    var slice := frames[i..j];
    forall a, b | 0 <= a < b < |slice| && slice[a].Sample? && slice[b].Sample?
      ensures slice[a].now <= slice[b].now
    {
      assert slice[a] == frames[i + a] && slice[b] == frames[i + b];
    }
  }

  /** A bound below every clock reading of a run is a bound below those of a prefix. */
  lemma ClockFromPrefix(t: real, frames: seq<Frame>, i: nat)
    requires i <= |frames|
    requires ClockFrom(t, frames)
    ensures ClockFrom(t, frames[..i])
  {
    forall a | 0 <= a < i && frames[..i][a].Sample? ensures t <= frames[..i][a].now {
      assert frames[..i][a] == frames[a];
    }
  }

  /** After a prefix of a run with a monotone clock, the talk time is below every later reading. */
  lemma TalkTimeBelowLater(m: Mouth, frames: seq<Frame>, i: nat, j: nat)
    requires i <= j <= |frames|
    requires ClockMonotone(frames)
    requires ClockFrom(m.lastTalkTime, frames)
    ensures ClockFrom(Run(m, frames[..i]).lastTalkTime, frames[i..j])
  {
    var front, back := frames[..i], frames[i..j];
    MonotoneSlice(frames, 0, i);
    assert frames[0..i] == front;
    ClockFromPrefix(m.lastTalkTime, frames, i);
    TalkTimeWithinClock(m, front);
    forall b | 0 <= b < |back| && back[b].Sample?
      ensures Run(m, front).lastTalkTime <= back[b].now
    {
      assert back[b] == frames[i + b];
      LatestBelowLater(m.lastTalkTime, frames, i, i + b);
    }
  }

  /** Every prefix of a run: the talk time seen after a longer prefix is never earlier. */
  lemma {:induction false} TalkTimeNonDecreasing(m: Mouth, frames: seq<Frame>, i: nat, j: nat)
    requires i <= j <= |frames|
    requires ClockMonotone(frames)
    requires ClockFrom(m.lastTalkTime, frames)
    ensures Run(m, frames[..i]).lastTalkTime <= Run(m, frames[..j]).lastTalkTime
  {
    var front, back := frames[..i], frames[i..j];
    assert frames[..j] == front + back;
    RunAppend(m, front, back);
    TalkTimeBelowLater(m, frames, i, j);
    MonotoneSlice(frames, i, j);
    TalkTimeWithinClock(Run(m, front), back);
  }

  /** The latest reading of a prefix is no later than any sample after it. */
  lemma {:induction false} LatestBelowLater(t: real, frames: seq<Frame>, i: nat, j: nat)
    requires i <= j < |frames| && frames[j].Sample?
    requires ClockMonotone(frames)
    requires ClockFrom(t, frames)
    ensures LatestClock(t, frames[..i]) <= frames[j].now
    decreases i
  {
    if i > 0 {
      var prefix := frames[..i];
      assert prefix[..i - 1] == frames[..i - 1];
      if !prefix[i - 1].Sample? {
        LatestBelowLater(t, frames, i - 1, j);
      }
    }
  }

  /** Without an analyser every frame shows the closed mouth. */
  lemma NoAnalyserShowsClosed(m: Mouth)
    ensures Animate(m, NoAnalyser) == m.(image := MouthClosed)
  {
  }

  /** The exact edges of the two thresholds. */
  lemma ThresholdEdges()
    ensures !Sounding(10) && Sounding(11)
    ensures OpenImage(140) == MouthSlightlyOpen && OpenImage(141) == MouthWideOpen
  {
  }

  /** A missing bin reads as silence. */
  lemma MissingBinIsSilence(bins: seq<Byte>, now: real)
    requires |bins| <= 1
    ensures !IsSounding(Sample(bins, now))
  {
  }

  /**
   * A silent frame at most the hold delay after the last sound changes nothing
   * (exactly 500 ms still holds); a later one closes the mouth and keeps the talk time.
   */
  lemma HoldEdge(m: Mouth, bins: seq<Byte>, now: real)
    requires !Sounding(Volume(bins))
    ensures now - m.lastTalkTime <= MouthCloseDelay ==> Animate(m, Sample(bins, now)) == m
    ensures now - m.lastTalkTime > MouthCloseDelay ==>
              Animate(m, Sample(bins, now)) == m.(image := MouthClosed)
  {
  }
}

=== FILE: option.dfy ===
/** Optional values: a message part that may be absent. */
module Optional {

  datatype Option<+T> = None | Some(value: T)
}

=== FILE: playback.dfy ===
/**
 * Playback scheduling of the interviewer's speech (index.tsx, the live
 * session's message callback).
 *
 * Every server message may carry one chunk of synthesized speech and may
 * carry an interruption flag. A chunk is queued on the output audio clock
 * right after the previous one, or at the current time when the queue has
 * run dry; the scheduled sources are tracked until they end. An
 * interruption stops every tracked source and resets the queue cursor.
 * A decoded chunk is reduced to its duration, and a chunk that cannot be
 * decoded ends the callback early; each message is handled as one atomic step.
 */
module Playback {
  import opened Optional

  /** A reading of the output audio clock, or a duration on it (seconds). */
  type Time = t: real | t >= 0.0

  /** Identity of one buffer source; every chunk gets a fresh one. */
  type SourceId = nat

  /** A buffer source started at `start` that plays for `duration`. */
  datatype Source = Source(start: Time, duration: Time) {
    function End(): Time
    {
      start + duration
    }
  }

  /**
   * `nextStartTime` is the cursor where the next chunk goes; `sources` are the
   * sources not yet ended or stopped; `nextId` is the next fresh identity.
   */
  datatype Player = Player(nextStartTime: Time, sources: map<SourceId, Source>, nextId: SourceId)

  /** The audio part of a message: decoded to a buffer of the given duration, or not decodable. */
  datatype Chunk = Decoded(duration: Time) | Undecodable

  /** A server message: its audio part, if any, and its interruption flag. */
  datatype Message = Message(audio: Option<Chunk>, interrupted: bool)

  /** The message carries audio that decodes. */
  predicate Decodes(msg: Message)
  {
    msg.audio.Some? && msg.audio.value.Decoded?
  }

  /** The message carries audio that fails to decode. */
  predicate DecodeFails(msg: Message)
  {
    msg.audio.Some? && msg.audio.value.Undecodable?
  }

  /** The effect of one message: the new player, the source started (if any) and the sources stopped. */
  datatype Reply = Reply(player: Player, started: Option<SourceId>, stopped: set<SourceId>)

  function Max(a: Time, b: Time): (r: Time)
  {
    if a >= b then a else b
  }

  /** Initially the cursor is set to the clock reading when the audio is initialised. */
  function Init(currentTime: Time): (p: Player)
    ensures Valid(p) && p.sources == map[] && p.nextStartTime == currentTime
  {
    Player(currentTime, map[], 0)
  }

  /** Sources `x` and `y` do not play at the same time. */
  predicate Apart(x: Source, y: Source)
  {
    x.End() <= y.start || y.End() <= x.start
  }

  /**
   * What every reachable player satisfies: identities below the counter,
   * every tracked source ends by the cursor, and no two tracked sources overlap.
   */
  ghost predicate Valid(p: Player)
  {
    && (forall id :: id in p.sources ==> id < p.nextId)
    && (forall id :: id in p.sources ==> p.sources[id].End() <= p.nextStartTime)
    && (forall a, b :: a in p.sources && b in p.sources && a != b ==> Apart(p.sources[a], p.sources[b]))
  }

  /** Queue one chunk of the given duration. */
  function Schedule(p: Player, duration: Time, currentTime: Time): (r: (Player, SourceId))
    // the chunk starts no earlier than the clock and no earlier than the cursor,
    // at whichever of the two is later
    ensures r.1 in r.0.sources
    ensures var src := r.0.sources[r.1];
            && currentTime <= src.start && p.nextStartTime <= src.start
            && (src.start == currentTime || src.start == p.nextStartTime)
            && src.duration == duration
    // the cursor moves to the end of the chunk, so the next one follows without a gap
    ensures r.0.nextStartTime == r.0.sources[r.1].End()
    // the chunk is added under a fresh identity; no tracked source changes
    ensures r.0.sources.Keys == p.sources.Keys + {r.1}
    ensures Valid(p) ==> r.1 !in p.sources
    ensures Valid(p) ==> forall id :: id in p.sources ==> r.0.sources[id] == p.sources[id]
  {
    var start := Max(p.nextStartTime, currentTime);
    var id := p.nextId;
    (Player(start + duration, p.sources[id := Source(start, duration)], id + 1), id)
  }

  /** Stop and forget every tracked source; the cursor goes back to 0. */
  function Interrupt(p: Player): (r: (Player, set<SourceId>))
    ensures r.1 == p.sources.Keys
    ensures r.0.sources == map[] && r.0.nextStartTime == 0.0
    ensures r.0.nextId == p.nextId
  {
    (p.(sources := map[], nextStartTime := 0.0), p.sources.Keys)
  }

  /**
   * The message callback: the audio part first, then the interruption flag.
   * When the audio fails to decode the callback stops right there: the cursor
   * has already been moved up to the clock, no source starts, and the
   * interruption flag is never looked at.
   */
  function OnMessage(p: Player, msg: Message, currentTime: Time): (r: Reply)
    ensures r.started.Some? <==> Decodes(msg)
    // without an interruption that runs, nothing is stopped
    ensures !msg.interrupted || DecodeFails(msg) ==> r.stopped == {}
    ensures !msg.interrupted && msg.audio.None? ==> r.player == p
    // a decoded chunk without interruption is queued at the later of cursor and clock
    ensures !msg.interrupted && Decodes(msg) ==>
              && r.started.value in r.player.sources
              && r.player.sources[r.started.value].start == Max(p.nextStartTime, currentTime)
              && r.player.sources[r.started.value].duration == msg.audio.value.duration
              && r.player.nextStartTime == r.player.sources[r.started.value].End()
    // the started chunk gets a fresh identity, and without an interruption that
    // runs every tracked source stays tracked and unchanged
    ensures Valid(p) && Decodes(msg) ==> r.started.value !in p.sources
    ensures Valid(p) && (!msg.interrupted || DecodeFails(msg)) ==>
              forall id :: id in p.sources ==> id in r.player.sources && r.player.sources[id] == p.sources[id]
    // a failed decode keeps every tracked source playing, even when the message interrupts
    ensures DecodeFails(msg) ==>
              && r.player.sources == p.sources
              && r.player.nextStartTime == Max(p.nextStartTime, currentTime)
              && r.player.nextId == p.nextId
    // an interruption that runs stops every tracked source, including this
    // message's own chunk, and resets the cursor
    ensures msg.interrupted && !DecodeFails(msg) ==>
              && r.player.sources == map[]
              && r.player.nextStartTime == 0.0
              && r.stopped == p.sources.Keys + (if r.started.Some? then {r.started.value} else {})
  {
    match msg.audio
    case Some(Undecodable) =>
      Reply(p.(nextStartTime := Max(p.nextStartTime, currentTime)), None, {})
    case _ =>
      var (afterAudio, started) :=
        match msg.audio
        case Some(Decoded(duration)) =>
          var (q, id) := Schedule(p, duration, currentTime);
          (q, Some(id))
        case _ => (p, None);
      if msg.interrupted then
        var (q, stopped) := Interrupt(afterAudio);
        Reply(q, started, stopped)
      else
        Reply(afterAudio, started, {})
  }

  /** The `ended` listener of source `id`: it forgets that source and nothing else. */
  function OnEnded(p: Player, id: SourceId): (r: Player)
    ensures r.sources.Keys == p.sources.Keys - {id}
    ensures forall k :: k in r.sources ==> r.sources[k] == p.sources[k]
    ensures r.nextStartTime == p.nextStartTime && r.nextId == p.nextId
  {
    p.(sources := map k | k in p.sources && k != id :: p.sources[k])
  }

  lemma OnMessagePreservesValid(p: Player, msg: Message, currentTime: Time)
    requires Valid(p)
    ensures Valid(OnMessage(p, msg, currentTime).player)
  {
  }

  lemma OnEndedPreservesValid(p: Player, id: SourceId)
    requires Valid(p)
    ensures Valid(OnEnded(p, id))
  {
  }

  /** One thing that happens to the player. */
  datatype Event = Deliver(msg: Message, currentTime: Time) | Ended(id: SourceId)

  /**
   * A source started during a run, with the cursor it found and the clock
   * reading of the message that started it.
   */
  datatype Started = Started(id: SourceId, source: Source, cursor: Time, clock: Time)

  /** The player after one event. */
  function Step(p: Player, e: Event): Player
  {
    match e
    case Deliver(msg, currentTime) => OnMessage(p, msg, currentTime).player
    case Ended(id) => OnEnded(p, id)
  }

  /**
   * The source one event starts, if any; it is scheduled even when the same
   * message then interrupts. `LogMatchesOnMessage` shows it is the source the
   * message callback starts.
   */
  function StepLog(p: Player, e: Event): seq<Started>
  {
    if e.Deliver? && Decodes(e.msg) then
      var (q, id) := Schedule(p, e.msg.audio.value.duration, e.currentTime);
      [Started(id, q.sources[id], p.nextStartTime, e.currentTime)]
    else
      []
  }

  /** The log entry of a message names the source its callback starts, with the cursor and clock it saw. */
  lemma LogMatchesOnMessage(p: Player, msg: Message, currentTime: Time)
    ensures var reply := OnMessage(p, msg, currentTime);
            var log := StepLog(p, Deliver(msg, currentTime));
            && (|log| == 1 <==> reply.started.Some?)
            && |log| <= 1
            && (|log| == 1 ==>
                  && log[0].id == reply.started.value
                  && log[0].cursor == p.nextStartTime && log[0].clock == currentTime
                  && (!msg.interrupted ==> reply.player.sources[log[0].id] == log[0].source))
  {
  }

  /** The player after a run of events. */
  function Final(p: Player, events: seq<Event>): Player
    decreases |events|
  {
    if |events| == 0 then p else Final(Step(p, events[0]), events[1..])
  }

  /** The sources started during a run of events, in order. */
  function Log(p: Player, events: seq<Event>): seq<Started>
    decreases |events|
  {
    if |events| == 0 then [] else StepLog(p, events[0]) + Log(Step(p, events[0]), events[1..])
  }

  lemma {:induction false} RunPreservesValid(p: Player, events: seq<Event>)
    requires Valid(p)
    ensures Valid(Final(p, events))
    decreases |events|
  {
    if |events| > 0 {
      var q := Step(p, events[0]);
      match events[0] {
        case Deliver(msg, t) => OnMessagePreservesValid(p, msg, t);
        case Ended(id) => OnEndedPreservesValid(p, id);
      }
      RunPreservesValid(q, events[1..]);
    }
  }

  /** An interruption that takes effect: a failed decode ends the callback before the flag is read. */
  predicate Interrupts(e: Event)
  {
    e.Deliver? && e.msg.interrupted && !DecodeFails(e.msg)
  }

  predicate NoInterrupt(events: seq<Event>)
  {
    forall j :: 0 <= j < |events| ==> !Interrupts(events[j])
  }

  predicate FailsToDecode(e: Event)
  {
    e.Deliver? && DecodeFails(e.msg)
  }

  predicate AllDecode(events: seq<Event>)
  {
    forall j :: 0 <= j < |events| ==> !FailsToDecode(events[j])
  }

  /**
   * Each started source begins at the later of the cursor it found and the
   * clock reading of its own message, and the cursor it found is at or after
   * the end of the previous one (at or after `first` for the first). When
   * `exact` holds, the cursor it found is exactly that end (exactly `first`).
   */
  ghost predicate Chained(first: Time, log: seq<Started>, exact: bool)
  {
    && (forall i :: 0 <= i < |log| ==> log[i].source.start == Max(log[i].cursor, log[i].clock))
    && (|log| > 0 ==> first <= log[0].cursor && (exact ==> log[0].cursor == first))
    && (forall i :: 0 < i < |log| ==>
          log[i - 1].source.End() <= log[i].cursor && (exact ==> log[i].cursor == log[i - 1].source.End()))
  }

  /** Where the cursor stands after the sources of `log` were queued from cursor `first`. */
  function Cursor(first: Time, log: seq<Started>): Time
  {
    if |log| == 0 then first else log[|log| - 1].source.End()
  }

  /**
   * One event that does not interrupt starts at most one chunk, at the later
   * of cursor and clock; the cursor never moves back, and it stands at the
   * chunk's end unless the audio failed to decode.
   */
  lemma StepWithoutInterrupt(p: Player, e: Event)
    requires !Interrupts(e)
    ensures |StepLog(p, e)| <= 1
    ensures |StepLog(p, e)| == 1 ==>
              && StepLog(p, e)[0].cursor == p.nextStartTime
              && StepLog(p, e)[0].source.start == Max(StepLog(p, e)[0].cursor, StepLog(p, e)[0].clock)
    ensures Cursor(p.nextStartTime, StepLog(p, e)) <= Step(p, e).nextStartTime
    ensures !FailsToDecode(e) ==> Step(p, e).nextStartTime == Cursor(p.nextStartTime, StepLog(p, e))
  {
  }

  /** Putting one chunk that starts where it should in front of a chain keeps it a chain. */
  lemma ChainedConsOne(first: Time, mid: Time, s: Started, rest: seq<Started>, exact: bool)
    requires s.cursor == first && s.source.start == Max(s.cursor, s.clock)
    requires s.source.End() <= mid
    requires Chained(mid, rest, exact)
    ensures Chained(first, [s] + rest, exact && mid == s.source.End())
    ensures Cursor(first, [s] + rest) == (if |rest| == 0 then s.source.End() else Cursor(mid, rest))
  {
    var all := [s] + rest;
    forall i | 0 < i < |all| ensures all[i] == rest[i - 1] { }
  }

  /** A chain stays a chain when at most one chunk that starts where it should is put in front. */
  lemma ChainedCons(first: Time, mid: Time, log: seq<Started>, rest: seq<Started>)
    requires |log| <= 1
    requires |log| == 1 ==> log[0].cursor == first && log[0].source.start == Max(log[0].cursor, log[0].clock)
    requires Cursor(first, log) <= mid
    requires Chained(mid, rest, false)
    ensures Chained(first, log + rest, false)
    ensures Chained(mid, rest, true) && mid == Cursor(first, log) ==> Chained(first, log + rest, true)
    ensures Cursor(first, log + rest) <= Cursor(mid, rest)
    ensures mid == Cursor(first, log) ==> Cursor(first, log + rest) == Cursor(mid, rest)
  {
    if |log| == 0 {
      assert log + rest == rest;
    } else {
      assert log == [log[0]];
      ChainedConsOne(first, mid, log[0], rest, false);
      if Chained(mid, rest, true) {
        ChainedConsOne(first, mid, log[0], rest, true);
      }
    }
  }

  lemma NoInterruptTail(events: seq<Event>)
    requires |events| > 0 && NoInterrupt(events)
    ensures !Interrupts(events[0]) && NoInterrupt(events[1..])
    ensures AllDecode(events) <==> !FailsToDecode(events[0]) && AllDecode(events[1..])
  {
    forall j | 0 <= j < |events[1..]| ensures events[1..][j] == events[j + 1] {
    }
  }

  /**
   * Without interruptions, every chunk of a run is queued at or after the end
   * of the previous one, and the cursor never falls behind the last end. When
   * every chunk decodes, the chunks are queued back to back and the cursor
   * ends exactly at the end of the last one.
   */
  lemma {:induction false} QueuedBackToBack(p: Player, events: seq<Event>)
    requires NoInterrupt(events)
    ensures Chained(p.nextStartTime, Log(p, events), false)
    ensures Cursor(p.nextStartTime, Log(p, events)) <= Final(p, events).nextStartTime
    ensures AllDecode(events) ==> Chained(p.nextStartTime, Log(p, events), true)
    ensures AllDecode(events) ==> Final(p, events).nextStartTime == Cursor(p.nextStartTime, Log(p, events))
    decreases |events|
  {
    if |events| > 0 {
      var q := Step(p, events[0]);
      NoInterruptTail(events);
      StepWithoutInterrupt(p, events[0]);
      QueuedBackToBack(q, events[1..]);
      ChainedCons(p.nextStartTime, q.nextStartTime, StepLog(p, events[0]), Log(q, events[1..]));
    }
  }

  /** Chained sources follow one another: none starts before an earlier one has ended. */
  lemma {:induction false} ChainedNeverOverlap(first: Time, log: seq<Started>)
    requires Chained(first, log, false)
    ensures forall i, j :: 0 <= i < j < |log| ==> log[i].source.End() <= log[j].source.start
    decreases |log|
  {
    if |log| > 1 {
      var init := log[..|log| - 1];
      assert Chained(first, init, false) by {
        forall i | 0 <= i < |init| ensures init[i] == log[i] { }
      }
      ChainedNeverOverlap(first, init);
      forall i, j | 0 <= i < j < |log|
        ensures log[i].source.End() <= log[j].source.start
      {
        if j < |log| - 1 {
          assert init[i] == log[i] && init[j] == log[j];
        } else {
          assert log[j - 1].source.End() <= log[j].source.start;
          if i < j - 1 {
            assert init[i] == log[i] && init[j - 1] == log[j - 1];
            assert log[i].source.End() <= log[j - 1].source.start;
          }
        }
      }
    }
  }

  /** Every started source starts no earlier than the clock reading of its own message. */
  lemma {:induction false} NeverStartsInThePast(p: Player, events: seq<Event>)
    ensures forall i :: 0 <= i < |Log(p, events)| ==> Log(p, events)[i].clock <= Log(p, events)[i].source.start
    decreases |events|
  {
    if |events| > 0 {
      NeverStartsInThePast(Step(p, events[0]), events[1..]);
    }
  }

  /**
   * A tracked source stays tracked, unchanged, through any run that neither
   * delivers its own `ended` event nor interrupts (a message whose audio
   * fails to decode never interrupts).
   */
  lemma {:induction false} ActiveUntilEnded(p: Player, events: seq<Event>, id: SourceId)
    requires Valid(p)
    requires id in p.sources
    requires NoInterrupt(events)
    requires forall j :: 0 <= j < |events| ==> events[j] != Ended(id)
    ensures id in Final(p, events).sources
    ensures Final(p, events).sources[id] == p.sources[id]
    decreases |events|
  {
    if |events| > 0 {
      var q := Step(p, events[0]);
      assert !Interrupts(events[0]) && events[0] != Ended(id);
      assert id in q.sources && q.sources[id] == p.sources[id];
      RunPreservesValid(p, events[..1]);
      assert Final(p, events[..1]) == q;
      forall j | 0 <= j < |events[1..]| ensures !Interrupts(events[1..][j]) && events[1..][j] != Ended(id) {
        assert events[1..][j] == events[j + 1];
      }
      ActiveUntilEnded(q, events[1..], id);
    }
  }

  /** After an interruption the next chunk starts right at the current clock reading. */
  lemma NextChunkAfterInterruptStartsNow(p: Player, first: Message, t1: Time, d: Time, t2: Time)
    requires Interrupts(Deliver(first, t1))
    ensures var q := OnMessage(p, first, t1).player;
            var r := OnMessage(q, Message(Some(Decoded(d)), false), t2);
            r.player.sources[r.started.value].start == t2
  {
  }
}

=== FILE: session_ui.dfy ===
/**
 * The interview page's state flags and status line (index.tsx): recording,
 * context set, coding questions enabled, coding session active, and the
 * status and error strings, with the handlers that change them and the
 * render-time views derived from them.
 *
 * The microphone request is reduced to its outcome; the live session is
 * reduced to the callbacks that touch the status line.
 */
module SessionUi {

  datatype Ui = Ui(
    isRecording: bool,
    isContextSet: bool,
    codingQuestionsEnabled: bool,
    isCodingSessionActive: bool,
    status: string,
    error: string)

  const RequestingMic := "Requesting microphone access..."
  const MicGranted := "Microphone access granted. Starting capture..."
  /**
   * The text exactly as the program writes it: the UTF-8 bytes of a red
   * circle emoji, read as Windows-1252, followed by the message.
   */
  const InProgress := "\U{F0}\U{178}\U{201D}\U{B4} Interview in progress..."
  const Paused := "Interview paused."
  const Cleared := "Session cleared. Please provide new interview context."
  const Opened := "Opened"

  /** The outcome of asking the browser for the microphone. */
  datatype MicOutcome = Granted | Denied(message: string)

  /** The page as first shown. */
  function Initial(): (r: Ui)
    ensures !r.isRecording && !r.isContextSet && !r.codingQuestionsEnabled && !r.isCodingSessionActive
    ensures StatusLine(r) == ""
    ensures Consistent(r)
  {
    Ui(false, false, false, false, "", "")
  }

  /** The flags other than `isRecording` agree in `u` and `r`. */
  predicate KeepsOtherFlags(u: Ui, r: Ui)
  {
    && r.isContextSet == u.isContextSet
    && r.codingQuestionsEnabled == u.codingQuestionsEnabled
    && r.isCodingSessionActive == u.isCodingSessionActive
  }

  /** The four flags of `u` and `r` agree. */
  predicate SameFlags(u: Ui, r: Ui)
  {
    r.isRecording == u.isRecording && KeepsOtherFlags(u, r)
  }

  /** The status line: the error when there is one, the status otherwise. */
  function StatusLine(u: Ui): string
  {
    if u.error != "" then u.error else u.status
  }

  function UpdateStatus(u: Ui, msg: string): (r: Ui)
    ensures StatusLine(r) == msg
    ensures r.error == ""
    ensures SameFlags(u, r)
  {
    u.(status := msg, error := "")
  }

  function UpdateError(u: Ui, msg: string): (r: Ui)
    ensures r.error == msg
    ensures msg != "" ==> StatusLine(r) == msg
    ensures msg == "" ==> StatusLine(r) == u.status
    ensures r.status == u.status
    ensures SameFlags(u, r)
  {
    u.(error := msg)
  }

  /** Stopping always succeeds: the guard in front of it can never fire, as the input audio context always exists. */
  function StopRecording(u: Ui): (r: Ui)
    ensures !r.isRecording
    ensures r.error == "" && StatusLine(r) == Paused
    ensures KeepsOtherFlags(u, r)
  {
    UpdateStatus(u, Paused).(isRecording := false)
  }

  /** The part of a start before the microphone request is awaited: it announces the request. */
  function RequestMicrophone(u: Ui): (r: Ui)
    ensures r.status == RequestingMic && r.error == ""
    ensures SameFlags(u, r)
  {
    UpdateStatus(u, RequestingMic)
  }

  /**
   * The part of a start after the microphone request resolves: when granted,
   * recording begins; when denied, the error is reported and the recording
   * is stopped. Either way the last report is a status, so the error ends empty.
   */
  function FinishStart(u: Ui, mic: MicOutcome): (r: Ui)
    ensures r.isRecording <==> mic.Granted?
    ensures r.error == ""
    ensures r.status == (if mic.Granted? then InProgress else Paused)
    ensures KeepsOtherFlags(u, r)
  {
    match mic
    case Granted =>
      var capturing := UpdateStatus(u, MicGranted);
      UpdateStatus(capturing.(isRecording := true), InProgress)
    case Denied(message) =>
      StopRecording(UpdateError(u, "Error: " + message))
  }

  /**
   * Starting does nothing while already recording. Otherwise it asks for the
   * microphone and, in this model, handles the answer in the same step.
   */
  function StartRecording(u: Ui, mic: MicOutcome): (r: Ui)
    ensures u.isRecording ==> r == u
    ensures !u.isRecording ==> (r.isRecording <==> mic.Granted?)
    ensures !u.isRecording ==> r.error == ""
    ensures !u.isRecording && mic.Granted? ==> r.status == InProgress && StatusLine(r) == InProgress
    ensures !u.isRecording && mic.Denied? ==> r.status == Paused && StatusLine(r) == Paused
    ensures KeepsOtherFlags(u, r)
  {
    if u.isRecording then u else FinishStart(RequestMicrophone(u), mic)
  }

  /** The record button: stop when recording, start otherwise. */
  function ToggleRecording(u: Ui, mic: MicOutcome): (r: Ui)
    ensures r.isRecording <==> !u.isRecording && mic.Granted?
    ensures r.error == ""
    ensures u.isRecording ==> StatusLine(r) == Paused
    ensures !u.isRecording && mic.Granted? ==> StatusLine(r) == InProgress
    ensures !u.isRecording && mic.Denied? ==> StatusLine(r) == Paused
    ensures KeepsOtherFlags(u, r)
  {
    if u.isRecording then StopRecording(u) else StartRecording(u, mic)
  }

  /** The reset button: stop, forget the context, and ask for a new one. */
  function Reset(u: Ui): (r: Ui)
    ensures !r.isRecording && !r.isContextSet && !r.codingQuestionsEnabled && !r.isCodingSessionActive
    ensures r.error == "" && StatusLine(r) == Cleared
  {
    var stopped := StopRecording(u);
    UpdateStatus(stopped.(isContextSet := false, isCodingSessionActive := false, codingQuestionsEnabled := false), Cleared)
  }

  /** Submitting the context form; `coding` is the state of its coding checkbox. */
  function SubmitContext(u: Ui, coding: bool): (r: Ui)
    ensures r.isContextSet && r.codingQuestionsEnabled == coding
    ensures r.isRecording == u.isRecording && r.isCodingSessionActive == u.isCodingSessionActive
    ensures r.status == u.status && r.error == u.error
  {
    u.(codingQuestionsEnabled := coding, isContextSet := true)
  }

  function StartCodingSession(u: Ui): (r: Ui)
    ensures r.isCodingSessionActive && CodingButtonHidden(r)
    ensures r.isRecording == u.isRecording && r.isContextSet == u.isContextSet
    ensures r.codingQuestionsEnabled == u.codingQuestionsEnabled
    ensures r.status == u.status && r.error == u.error
  {
    u.(isCodingSessionActive := true)
  }

  function EndCodingSession(u: Ui): (r: Ui)
    ensures !r.isCodingSessionActive
    ensures CodingButtonHidden(r) <==> !u.codingQuestionsEnabled
    ensures r.isRecording == u.isRecording && r.isContextSet == u.isContextSet
    ensures r.codingQuestionsEnabled == u.codingQuestionsEnabled
    ensures r.status == u.status && r.error == u.error
  {
    u.(isCodingSessionActive := false)
  }

  /** The "Start Coding Session" button is hidden. */
  predicate CodingButtonHidden(u: Ui)
  {
    !u.codingQuestionsEnabled || u.isCodingSessionActive
  }

  datatype Icon = PlayIcon | PauseIcon

  /** What the page shows for a given state. */
  datatype Screen = Screen(
    contextForm: bool,
    codingInterface: bool,
    controlsVisible: bool,
    recordIcon: Icon,
    codingButtonHidden: bool,
    statusLine: string)

  function Render(u: Ui): (r: Screen)
    // the context form and the controls never show together
    ensures r.contextForm <==> !r.controlsVisible
    // the start button and the coding editor never show together
    ensures !r.codingButtonHidden ==> !r.codingInterface
    // in a consistent state, the pause icon, the coding button and the coding
    // editor only appear once the context is set
    ensures Consistent(u) ==>
              (r.recordIcon == PauseIcon || !r.codingButtonHidden || r.codingInterface) ==> r.controlsVisible
  {
    Screen(
      !u.isContextSet,
      u.isCodingSessionActive,
      u.isContextSet,
      if u.isRecording then PauseIcon else PlayIcon,
      CodingButtonHidden(u),
      StatusLine(u))
  }

  /** A user action; each comes from a control on the page. */
  datatype Action =
    | SubmitForm(coding: bool)
    | PressRecord(mic: MicOutcome)
    | PressReset
    | PressStartCoding
    | PressNextQuestion
    | PressEndCoding

  /** A callback of the live session that touches the status line. */
  datatype LiveEvent =
    | SessionOpened
    | SessionError(message: string)
    | SessionClosed(reason: string)
    | ConnectFailed(message: string)

  datatype Event = User(action: Action) | Live(event: LiveEvent)

  /** The control behind `a` is on the page and visible, so the user can use it. */
  predicate OnScreen(s: Screen, a: Action)
  {
    match a
    case SubmitForm(_) => s.contextForm
    case PressRecord(_) => s.controlsVisible
    case PressReset => s.controlsVisible
    case PressStartCoding => s.controlsVisible && !s.codingButtonHidden
    case PressNextQuestion => s.codingInterface
    case PressEndCoding => s.codingInterface
  }

  predicate Possible(u: Ui, e: Event)
  {
    e.User? ==> OnScreen(Render(u), e.action)
  }

  /** Dispatch one event to its handler. */
  function Handle(u: Ui, e: Event): (r: Ui)
    // the live session's callbacks only report; they never change a flag
    ensures e.Live? ==> SameFlags(u, r)
    ensures e.Live? && (e.event.SessionOpened? || e.event.SessionClosed?) ==> r.error == ""
    ensures e.Live? && (e.event.SessionError? || e.event.ConnectFailed?) ==> r.status == u.status
    // what each callback reports
    ensures e == Live(SessionOpened) ==> StatusLine(r) == Opened
    ensures e.Live? && e.event.SessionClosed? ==> StatusLine(r) == "Close:" + e.event.reason
    ensures e.Live? && (e.event.SessionError? || e.event.ConnectFailed?) ==> r.error == e.event.message
    // clearing the code editor touches no state of the page
    ensures e == User(PressNextQuestion) ==> r == u
  {
    match e
    case User(SubmitForm(coding)) => SubmitContext(u, coding)
    case User(PressRecord(mic)) => ToggleRecording(u, mic)
    case User(PressReset) => Reset(u)
    case User(PressStartCoding) => StartCodingSession(u)
    case User(PressNextQuestion) => u
    case User(PressEndCoding) => EndCodingSession(u)
    case Live(SessionOpened) => UpdateStatus(u, Opened)
    case Live(SessionError(message)) => UpdateError(u, message)
    case Live(SessionClosed(reason)) => UpdateStatus(u, "Close:" + reason)
    case Live(ConnectFailed(message)) => UpdateError(u, message)
  }

  /**
   * What holds of every state the page can reach: recording, coding questions
   * and a coding session all need a context, and a coding session needs coding
   * questions enabled.
   */
  predicate Consistent(u: Ui)
  {
    && (u.isRecording ==> u.isContextSet)
    && (u.codingQuestionsEnabled ==> u.isContextSet)
    && (u.isCodingSessionActive ==> u.codingQuestionsEnabled)
  }

  lemma HandlePreservesConsistent(u: Ui, e: Event)
    requires Consistent(u)
    requires Possible(u, e)
    ensures Consistent(Handle(u, e))
  {
  }

  /** A run of events, each possible in the state it meets. */
  predicate PossibleRun(u: Ui, events: seq<Event>)
    decreases |events|
  {
    |events| == 0 || (Possible(u, events[0]) && PossibleRun(Handle(u, events[0]), events[1..]))
  }

  function Run(u: Ui, events: seq<Event>): Ui
    decreases |events|
  {
    if |events| == 0 then u else Run(Handle(u, events[0]), events[1..])
  }

  /** Every state reached from a consistent state by possible events is consistent. */
  lemma {:induction false} ReachableConsistent(u: Ui, events: seq<Event>)
    requires Consistent(u)
    requires PossibleRun(u, events)
    ensures Consistent(Run(u, events))
    decreases |events|
  {
    if |events| > 0 {
      HandlePreservesConsistent(u, events[0]);
      ReachableConsistent(Handle(u, events[0]), events[1..]);
    }
  }

  /** The coding button shows exactly when coding is enabled and no session runs, and never beside the coding editor. */
  lemma CodingButtonShown(u: Ui)
    ensures !Render(u).codingButtonHidden <==> u.codingQuestionsEnabled && !u.isCodingSessionActive
    ensures !Render(u).codingButtonHidden ==> !Render(u).codingInterface
  {
  }

  /** Every state the page reaches from its first state through controls on screen is consistent. */
  lemma {:induction false} ReachableFromInitial(events: seq<Event>)
    requires PossibleRun(Initial(), events)
    ensures Consistent(Run(Initial(), events))
  {
    ReachableConsistent(Initial(), events);
  }

  /**
   * A denied microphone request ends with the recording stopped and the
   * paused message on display: the error text is cleared again by the stop
   * in the same step.
   */
  lemma DeniedMicLeavesNoError(u: Ui, message: string)
    requires !u.isRecording
    ensures StartRecording(u, Denied(message)).error == ""
    ensures Render(StartRecording(u, Denied(message))).statusLine == Paused
  {
  }

  /**
   * In the program the microphone request is awaited, and the reset button
   * stays on screen meanwhile. A reset during the wait, followed by a granted
   * request, leaves the page recording with no context: the context form shows
   * and the controls, record button included, are hidden.
   */
  lemma ResetWhileMicPending(u: Ui)
    requires Consistent(u) && u.isContextSet && !u.isRecording
    ensures var asking := RequestMicrophone(u);
            && OnScreen(Render(asking), PressReset)
            && var resumed := FinishStart(Reset(asking), Granted);
               && resumed.isRecording && !resumed.isContextSet
               && !Consistent(resumed)
               && Render(resumed).contextForm && !Render(resumed).controlsVisible
  {
  }

  /** The status line follows the last status or error report. */
  lemma StatusLineFollowsReports(u: Ui, status: string, error: string)
    ensures StatusLine(UpdateStatus(u, status)) == status
    ensures error != "" ==> StatusLine(UpdateError(UpdateStatus(u, status), error)) == error
    ensures StatusLine(UpdateError(UpdateStatus(u, status), "")) == status
  {
  }
}
